=== FILE: README.md ===
# Harmonicon core, modelled in Dafny

Harmonicon is a music-composition DSL. Authors write builder functions that
register instruments, effects, snippets, templates and demos into a model.
Nodes of a session discover their connections through named *patches*, and
a browser controller renders the selected file and drives playback.

This project models three sequential pieces of that logic as pure Dafny
functions over immutable datatypes, and proves properties about them:

- `common.dfy` (module `Common`): `Result`, `Option` and `Outcome` types,
  opaque builder-function handles, and an order-preserving subsequence
  relation.
- `patch_graph.dfy` (module `PatchGraph`): the patch-graph resolver of
  `BaseNodeModel`. The `patches` getter is modelled as a left fold over the
  session's patch list (`Resolve`). It is proved equal to two independent
  filter definitions (`InboundOf`, `OutboundOf`). Consequences follow:
  membership in both directions, order preservation, disjointness, the
  self-loop rule and the empty case.
- `instrument.dfy` (module `Instrument`): `InstrumentModel`. It holds the
  constant patch type `"instrument"`, the declared property table with
  `session` marked `json: false`, and the instrument's inputs and outputs
  stated over patch fields.
- `library.dfy` (module `LibraryComposer`): the library composer's DSL
  verbs on a library record of five sequences. Each verb's contract states
  which collection changes and that no other collection changes. `Run`
  models an author's building function of one shape: a straight-line
  sequence of awaited verb calls with no `try`/`catch` of its own, which
  stops at the first raised error.
- `controller.dfy` (module `DawController`): the allow-listed event
  registry (`allow`/`on`/`emit`) and the constructor's fifteen channels. It
  also holds the render bookkeeping (`changed`, `render`, `withRendered`)
  and the actions `play`, `stop`, `pause`, `selectFile` and
  `setFileSource`. Each action returns the next state, the ordered effects
  (driver calls and listener invocations) and what it returned or raised.

External collaborators are parameters:

- the audio driver's outcomes (`Audio`);
- the external `render` function (`Renderer`);
- child composition (`Compose`);
- workspace persistence outcomes.

Author builder functions and listeners are opaque handles.

Behaviour of the code that the model keeps and that is easy to misread:

- A node's outputs exclude patches that also name the node as their
  output side (the `else if` at packages/core/src/models/base/node.js:11).
  The symmetric reading is `AllDrawingFrom`. The lemma
  `OutputsMatchSymmetricReadingIffNoSelfLoop` proves the two agree exactly
  when the session has no self-loop on the node.
- `render` does not release the audio buffer on failure. `Render`'s
  contract gives no release guarantee.
- `track` and `phrase` raise `ComposerError('not implemented')`, not a
  separate not-implemented error type.
- `setFileSource` has no `catch`, so it can raise past the controller
  (with no file selected, or when `file.setProperties` raises). `play`, `stop`, `pause` and `selectFile` catch
  their errors and cannot raise once the constructor's channels are
  registered.
- `render` records the rendered source before it calls
  `observePosition`. If that call raises, the action fails, yet `changed`
  is already false, so the next `withRendered` skips rendering
  (`ObserveFailureSkipsNextRender`).
- `render` reads `this.file.source` twice: once for the external render
  (packages/web/lib/daw/controller.js:273) and once, after that await,
  to record it as rendered (packages/web/lib/daw/controller.js:278). A `setFileSource` that
  lands during the await records a source that was never rendered, so
  `changed` reads false while the audio is stale. The model runs each
  action to completion (see "## Left out"), so it reads one source and
  does not show this.
- `on` and `emit` test `typeof this.listeners[name] === 'undefined'` on a
  plain object. A name inherited from `Object.prototype` (`toString`,
  `constructor`, `__proto__`, ...) passes that test, and the following
  `push` or `forEach` raises a `TypeError` instead of the
  unregistered-event error (`InheritedName`, `NotAFunction`).

## Model

| member | source | states |
|---|---|---|
| PatchGraph.Resolve | packages/core/src/models/base/node.js:7-19 | every input feeds the node; every output draws from the node and does not feed it; the two lists together are a sub-multiset of the session's patches, so their lengths add up to at most its length |
| PatchGraph.ResolveIsFilter | packages/core/src/models/base/node.js:7-19 | the ordered scan computes exactly the filter "output side is the node" for inputs and the filter "input side is the node and output side is not" for outputs |
| PatchGraph.InboundMembership | packages/core/src/models/base/node.js:8-10 | a patch is an input of the node iff it is in the session with `outputType == patchType` and `output == name` |
| PatchGraph.OutboundMembership | packages/core/src/models/base/node.js:11-13 | a patch is an output iff it is in the session with `inputType == patchType`, `input == name`, and it is not an input |
| PatchGraph.ResolvePreservesOrder | packages/core/src/models/base/node.js:7-15 | both result lists are subsequences of the session's patch list, so relative order is preserved |
| PatchGraph.SelfLoopIsInputOnly | packages/core/src/models/base/node.js:8-13 | a patch matching both tests is in the inputs and not in the outputs |
| PatchGraph.ResolveDisjoint | packages/core/src/models/base/node.js:8-13 | no patch is both an input and an output of the same node |
| PatchGraph.NoMatchIsEmpty | packages/core/src/models/base/node.js:16-19 | the result is `{inputs: [], outputs: []}` iff no patch names the node on either side; patches naming other nodes or types are inert |
| PatchGraph.OutputsMatchSymmetricReadingIffNoSelfLoop | packages/core/src/models/base/node.js:8-13 | outputs equal "all patches whose input side is the node" iff the session holds no self-loop on the node |
| PatchGraph.Inputs | packages/core/src/models/base/node.js:22-24 | the `inputs` getter is the filter of session patches feeding the node, in session order |
| PatchGraph.Outputs | packages/core/src/models/base/node.js:26-28 | the `outputs` getter is the filter of session patches drawing from the node but not feeding it, in session order |
| PatchGraph.SynthIntoReverb | packages/core/src/models/base/node.js:8-13 | for a synth-to-reverb patch, the patch is an input of the reverb and an output of the synth, and not the other way round |
| Instrument.Inputs | packages/core/src/models/instrument.js:17-19 | an instrument's inputs are the filter of its session's patches with `outputType == "instrument"` and `output == name`, in session order and with duplicates kept; membership in both directions |
| Instrument.Outputs | packages/core/src/models/instrument.js:17-19 | an instrument's outputs are the filter of the patches with `inputType == "instrument"` and `input == name` that are not already inputs, in session order and with duplicates kept; membership in both directions |
| Instrument.SerialisedKeys | packages/core/src/models/instrument.js:5-15 | a key is serialised iff some declaration has that key and is not marked `json: false` |
| Instrument.InstrumentDeclarations | packages/core/src/models/instrument.js:5-15 | the instrument declares exactly three properties, whose keys are exactly `session`, `name` and `fn`; `session` has no type and is `json: false`, `name` is a String, `fn` a Function; only `name` and `fn` are serialised, in that order |
| LibraryComposer.Instrument | packages/compose/src/library.js:49-53 | appends one `{name, fn}` record to `instruments`; name and every other collection are unchanged |
| LibraryComposer.Effect | packages/compose/src/library.js:61-65 | appends one `{name, fn}` record to `effects`; name and every other collection are unchanged |
| LibraryComposer.CollectionRecordComposer | packages/compose/src/library.js:137-146 | a failing child composition propagates its error and adds nothing; a successful one appends the child's model to the named collection only and returns that same composer |
| LibraryComposer.Snippet | packages/compose/src/library.js:93-100 | composes with the snippet composer; only `snippets` can change, by the returned composer's model |
| LibraryComposer.Template | packages/compose/src/library.js:108-115 | composes with the template composer; only `templates` can change, by the returned composer's model |
| LibraryComposer.Demo | packages/compose/src/library.js:123-130 | composes with the demo composer; only `demos` can change, by the returned composer's model |
| LibraryComposer.Apply | packages/compose/src/library.js:49-146 | one verb call keeps the library's name and only extends collections; when it does not raise, every collection gains exactly the entries the call declares: the `{name, fn}` record for `instrument`/`effect`, the composed child's model for `snippet`/`template`/`demo`, nothing for the others; when it raises, the library is unchanged |
| LibraryComposer.Run | packages/compose/src/library.js:49-146 | a sequence of verb calls keeps the library's name and only extends each collection; when every call succeeds, every collection gains exactly the declared records and composed child models, in call order |
| LibraryComposer.RunStopsAtFirstRaise | packages/compose/src/library.js:49-146 | a sequence that raises stops at one call: the calls before it all succeed and the library holds exactly their entries, while that call raises the run's error and adds nothing |
| LibraryComposer.UnimplementedVerbFails | packages/compose/src/library.js:73-85 | a straight-line sequence of verb calls that contains `track` or `phrase` never completes successfully |
| DawController.Allow | packages/web/lib/daw/controller.js:233-235 | the channel becomes registered with an empty listener list; other channels are unchanged |
| DawController.On | packages/web/lib/daw/controller.js:237-243 | fails iff the name is not a key of the listeners object, with a `TypeError` for a name inherited from `Object.prototype` and an unregistered-event error otherwise; on success appends the listener to that channel only |
| DawController.Deliver | packages/web/lib/daw/controller.js:252-254 | one invocation per listener, in registration order, each with the payload |
| DawController.Emit | packages/web/lib/daw/controller.js:245-255 | fails iff the name is not a key of the listeners object, with a `TypeError` for a name inherited from `Object.prototype` and an unregistered-event error otherwise; on success invokes each listener of the channel once, in order, with the payload |
| DawController.EmitAfterOn | packages/web/lib/daw/controller.js:237-255 | a listener added with `on` is invoked after all earlier listeners of its channel |
| DawController.EmitAfterAllow | packages/web/lib/daw/controller.js:233-235 | re-allowing a channel drops its earlier listeners |
| DawController.AllowAll | packages/web/lib/daw/controller.js:35-52 | allowing a list of names registers each with an empty list and leaves other channels unchanged |
| DawController.New | packages/web/lib/daw/controller.js:27-52 | the constructor registers exactly the listed channels, each empty, with no file selected and nothing rendered |
| DawController.NewRegistersExactlyTheChannels | packages/web/lib/daw/controller.js:35-52 | there are fifteen channels, and after construction `on` and `emit` succeed exactly for them |
| DawController.ChangedInitially | packages/web/lib/daw/controller.js:23-30 | on a fresh controller, once a file is selected, `changed` is true because nothing was rendered yet |
| DawController.ChangedBeforeFirstRender | packages/web/lib/daw/controller.js:23-25 | on any controller whose rendered source is still `null`, selecting a file makes `changed` true |
| DawController.Render | packages/web/lib/daw/controller.js:269-285 | starts the audio buffer first; succeeds iff buffer, file, external render and `observePosition` all succeed; once the external render succeeds the rendered source is recorded, so `changed` is false even when `observePosition` then raises; a failure before that leaves the state unchanged; the raised error is the buffer's, the `TypeError` for a missing file, the external render's, or `observePosition`'s, each passed on unchanged |
| DawController.WithRendered | packages/web/lib/daw/controller.js:261-267 | renders iff `changed` is true, then runs the action; a failed render raises before the action runs; after a successful render, the state is the render's and the effects are the render's followed by the action |
| DawController.WithRenderedRendersOnce | packages/web/lib/daw/controller.js:261-278 | after a successful `withRendered`, another one does not render again |
| DawController.ObserveFailureSkipsNextRender | packages/web/lib/daw/controller.js:261-285 | when `observePosition` raises during a render, the action fails, and the next `withRendered` runs its action without rendering |
| DawController.Catch | packages/web/lib/daw/controller.js:194-201 | a raised error becomes one `error` event with the message and the cause; only an unregistered `error` channel lets it escape |
| DawController.Play | packages/web/lib/daw/controller.js:168-182 | with nothing changed, calls the driver's play and nothing else (plus the error report if play raises); with `changed` true and a successful render, the effects are exactly the render's, then play, then the error report if play raises; a failure (no file, failed render, failed play) becomes one `error` event with "Unable to play this file :-(" and the cause; with the constructor's channels registered it never raises, and it does not touch the listeners |
| DawController.Stop | packages/web/lib/daw/controller.js:184-202 | with the channels registered, `stop` never raises; a successful driver stop is followed by `transport:position` with `{measure: 0, beat: 0, subdivision: 0}` to every listener in order; a failed one by one `error` event with "Unable to stop audio, oh noes!" and the cause |
| DawController.Pause | packages/web/lib/daw/controller.js:204-216 | a successful pause calls the driver only; a failed one is followed by one `error` event with "Unable to pause audio, oh noes!" and the cause; with the channels registered, `pause` never raises |
| DawController.SelectFile | packages/web/lib/daw/controller.js:149-166 | the file becomes selected even when a later step fails; with the channels registered, `selectFile` never raises, and either records the selection in the workspace, saves it and emits `file:selected` with the file, or, when recording raises, reports one `error` event with "Unable to select file." and the cause |
| DawController.SetFileSource | packages/web/lib/daw/controller.js:222-226 | raises iff no file is selected, `setProperties` raises or `changed` is unregistered; with no file it has no effect, and a raising `setProperties` is its only effect, with the state unchanged; otherwise it updates the source through `setProperties`, saves the file, and emits the new value of `changed` |
| DawController.SetFileSourceAfterRender | packages/web/lib/daw/controller.js:222-278 | after a render, setting the source makes `changed` true iff `setProperties` succeeds and the new source differs from the rendered one |
| DawController.NewIsRegistered | packages/web/lib/daw/controller.js:35-52 | the constructor's state registers every listed channel |

## Left out

- A collection's `add` is modelled as an append. Its implementation is not
  part of this model, so duplicate-name rejection is not modelled.
- `BaseComposer.compose` and the child composers (snippet, template,
  demo) are not part of this model. Child composition is the parameter
  `Compose`, and a child model's contents are opaque.
- `BaseModel`'s property machinery (`init`, JSON export) is not part of
  this model. `json: false` is kept as declared data, which
  `SerialisedKeys` reads.
- The `console.log` in the `patches` getter and the logging in the
  controller are left out because they are I/O.
- The global `Harmonicon.on(...)` subscriptions and the driver's
  `audio.on(...)` transport subscriptions in the constructor are left out.
  They are wiring to external emitters. The `composer:error` handler
  refers to an undefined variable.
- The callbacks registered by `observePosition` are left out. The model
  records the `ObservePosition` call, but not the later position events
  the driver forwards.
- `addFile`, `destroyFile`, `save`, `newFileName` and `wipe` are left out.
  They are file and workspace persistence, `Math.random`, `localStorage`
  and DOM work.
- Listeners are never run. A listener that throws, or that registers or
  emits during `emit`, is not modelled.
- Asynchronous scheduling and overlapping renders are left out. Actions
  are sequential steps, and promises that are not awaited (`file.save()`,
  `workspace.save()`) count as calls whose outcome is not observed.
- LibraryComposer.Snippet, LibraryComposer.Template, LibraryComposer.Demo,
  LibraryComposer.Run, LibraryComposer.RunStopsAtFirstRaise: a nested verb's building function runs inside
  `composer.compose` and could, through its closure, call the parent
  composer's verbs (`instrument`, `effect`, ...) and so change other
  collections of the parent library. The model takes child composition to
  be a function that cannot touch the parent library, so "only this
  collection changes" and "gains exactly the declared entries" hold under
  that assumption only.
- The building function is modelled only as a straight-line sequence of
  awaited verb calls. A function that catches a verb's error and carries
  on, calls verbs conditionally, or leaves a nested verb's promise
  unawaited is not modelled.
- DawController.Allow: `allow('__proto__')` on a plain object replaces the
  object's prototype instead of adding a key; the model treats it as an
  ordinary key. The constructor never allows that name.
- `file.setProperties` is external. The model takes its outcome as a
  parameter and assumes a raising call leaves the file unchanged.
- `selectFile`'s return value (the file) is not modelled. The action
  result is only success or failure.
- Patch resolution reads the session's patches and never changes them.
  This holds by construction in a pure model, so no lemma states it.

=== FILE: common.dfy ===
/**
 Shared vocabulary of the model: failure-compatible results, opaque handles
 for author-supplied builder functions, and an order-preserving subsequence
 relation used to state that a filtered list keeps its source order.
 */
module Common {

  /** The outcome of a step that either yields a value or raises an error. */
  datatype Result<+T, +E> = Success(value: T) | Failure(error: E)

  /** A value that may be absent (`null`/`undefined` in the source). */
  datatype Option<+T> = None | Some(value: T)

  /** The outcome of a step that yields nothing but may raise an error. */
  datatype Outcome<+E> = Pass | Fail(error: E)

  /** An author-supplied builder function (`fn`). The model never calls it,
      so it is an opaque handle. */
  datatype BuilderFn = BuilderFn(id: nat)

  /** `a` is obtained from `b` by deleting elements, keeping the order of
      the ones that remain. */
  predicate IsSubsequence<T(==)>(a: seq<T>, b: seq<T>)
    decreases |b|
  {
    if a == [] then true
    else if b == [] then false
    else if a[0] == b[0] then IsSubsequence(a[1..], b[1..])
    else IsSubsequence(a, b[1..])
  }

  /** Putting any element in front of the larger sequence keeps a
      subsequence. */
  lemma {:induction false} SubsequenceCons<T>(a: seq<T>, b: seq<T>, x: T)
    requires IsSubsequence(a, b)
    ensures IsSubsequence(a, [x] + b)
    decreases |b|, 1
  {
    if a != [] {
      assert ([x] + b)[1..] == b;
      if a[0] == x {
        SubsequenceDropHead(a, b);
      }
    }
  }

  /** Dropping the head of a subsequence keeps a subsequence. */
  lemma {:induction false} SubsequenceDropHead<T>(a: seq<T>, b: seq<T>)
    requires a != []
    requires IsSubsequence(a, b)
    ensures IsSubsequence(a[1..], b)
    decreases |b|, 0
  {
    assert b == [b[0]] + b[1..];
    if a[0] == b[0] {
      SubsequenceCons(a[1..], b[1..], b[0]);
    } else {
      SubsequenceDropHead(a, b[1..]);
      SubsequenceCons(a[1..], b[1..], b[0]);
    }
  }
}

=== FILE: controller.dfy ===
/**
 The DAW controller (`Controller` in packages/web/lib/daw/controller.js):
 an allow-listed event registry, and the bookkeeping that decides whether
 the selected file must be rendered again before it is played.

 Every action is a pure transition. It returns the next controller state,
 the effects it produced in order (calls into the audio driver, the
 renderer and persistence, and listener invocations), and what it returned
 or raised. The audio driver, the renderer and persistence are external:
 their outcomes are parameters. Listeners are opaque handles; an
 invocation is recorded, never run.
 */
module DawController {
  import opened Common

  // ---------------------------------------------------------------------
  // Data

  /** A subscribed callback, as an opaque handle. */
  datatype Listener = Listener(id: nat)

  /** The file being edited: its identity and its source text. */
  datatype File = File(id: nat, source: string)

  /** A transport position. */
  datatype Position = Position(measure: int, beat: int, subdivision: int)

  /** The position `stop` announces. */
  const ZeroPosition: Position := Position(0, 0, 0)

  /** What can be raised inside the controller. */
  datatype Error =
    | UnregisteredEvent(name: string) // `Unregistered event name "<name>"`
    | NotAFunction(name: string)      // a `TypeError` from calling `push`/`forEach` on an inherited member
    | NoFileSelected                  // reading a property of the still-undefined `file`
    | External(cause: nat)            // raised by the audio driver, the renderer or persistence

  /** What an event carries to its listeners. */
  datatype Payload =
    | ChangedFlag(changed: bool)
    | PositionUpdate(position: Position)
    | ErrorReport(message: string, error: Error)
    | FileSelected(file: File)

  /** The `listeners` object: channel name to callbacks in registration
      order. A name that is not a key is unregistered. */
  type Channels = map<string, seq<Listener>>

  /** `name` is a member every plain object inherits from
      `Object.prototype`. For such a name that is not an own key,
      `typeof this.listeners[name]` is not `'undefined'`, so the
      registration test passes and the following `push` or `forEach`
      raises a `TypeError` instead. */
  predicate InheritedName(name: string) {
    || name == "constructor" || name == "hasOwnProperty" || name == "isPrototypeOf"
    || name == "propertyIsEnumerable" || name == "toLocaleString" || name == "toString"
    || name == "valueOf" || name == "__proto__" || name == "__defineGetter__"
    || name == "__defineSetter__" || name == "__lookupGetter__" || name == "__lookupSetter__"
  }

  /** What `on` and `emit` raise for a name that is not a key of the
      listeners object. */
  function MissingChannel(name: string): Error {
    if InheritedName(name) then NotAFunction(name) else UnregisteredEvent(name)
  }

  /** The composer/renderer pair the external `render` produces, kept
      opaque. */
  datatype Rendering = Rendering(composer: nat, renderer: nat)

  /** Controller state: its listeners, the selected file (undefined until a
      file is selected), the source last rendered (`null` until the first
      render) and the last rendering. */
  datatype Controller = Controller(
    listeners: Channels,
    file: Option<File>,
    renderedSource: Option<string>,
    rendering: Option<Rendering>)

  /** A call into an external collaborator. */
  datatype DriverCall =
    | StartAudioBuffer
    | RenderSource(code: string)
    | ObservePosition
    | AudioPlay
    | AudioPause
    | AudioStop
    | UpdateSource(fileId: nat, source: string)
    | SaveFile(file: File)
    | SelectInWorkspace(fileId: nat)
    | SaveWorkspace

  /** One observable effect of an action, in the order it happens. */
  datatype Observable =
    | Call(call: DriverCall)
    | Notified(channel: string, listener: Listener, payload: Payload)

  /** The result of an action: next state, effects, and what it returned or
      raised. */
  datatype Transition = Transition(state: Controller, effects: seq<Observable>, result: Result<(), Error>)

  /** The outcomes the audio driver gives to one action's calls. */
  datatype Audio = Audio(
    startBuffer: Outcome<Error>,
    play: Outcome<Error>,
    pause: Outcome<Error>,
    stop: Outcome<Error>,
    observe: Outcome<Error>)

  /** The external `render({code}, audio)`. */
  type Renderer = string -> Result<Rendering, Error>

  // ---------------------------------------------------------------------
  // Events

  /** `allow(name)`: the channel's listener list becomes empty, whether or
      not it existed before. */
  function Allow(ch: Channels, name: string): (r: Channels)
    ensures r.Keys == ch.Keys + {name}
    ensures r[name] == []
    ensures forall n :: n in ch && n != name ==> r[n] == ch[n]
  {
    ch[name := []]
  }

  /** `on(name, fn)`: fails on an unregistered name (with a `TypeError` for
      an inherited one); otherwise appends `fn` to that channel and changes
      nothing else. */
  function On(ch: Channels, name: string, fn: Listener): (r: Result<Channels, Error>)
    ensures r.Failure? <==> name !in ch
    ensures r.Failure? && InheritedName(name) ==> r.error == NotAFunction(name)
    ensures r.Failure? && !InheritedName(name) ==> r.error == UnregisteredEvent(name)
    ensures r.Success? ==>
              && r.value.Keys == ch.Keys
              && r.value[name] == ch[name] + [fn]
              && forall n :: n in ch && n != name ==> r.value[n] == ch[n]
  {
    if name !in ch then Failure(MissingChannel(name))
    else Success(ch[name := ch[name] + [fn]])
  }

  /** The `forEach` of `emit`: one invocation per listener, in order. */
  function Deliver(name: string, ls: seq<Listener>, payload: Payload): (r: seq<Observable>)
    ensures |r| == |ls|
    ensures forall i :: 0 <= i < |r| ==> r[i] == Notified(name, ls[i], payload)
    decreases |ls|
  {
    if ls == [] then []
    else [Notified(name, ls[0], payload)] + Deliver(name, ls[1..], payload)
  }

  /** `emit(name, payload)`: fails on an unregistered name (with a
      `TypeError` for an inherited one); otherwise calls every listener of
      the channel once, in registration order, with `payload`. */
  function Emit(ch: Channels, name: string, payload: Payload): (r: Result<seq<Observable>, Error>)
    ensures r.Failure? <==> name !in ch
    ensures r.Failure? && InheritedName(name) ==> r.error == NotAFunction(name)
    ensures r.Failure? && !InheritedName(name) ==> r.error == UnregisteredEvent(name)
    ensures r.Success? ==>
              && |r.value| == |ch[name]|
              && forall i :: 0 <= i < |r.value| ==> r.value[i] == Notified(name, ch[name][i], payload)
  {
    if name !in ch then Failure(MissingChannel(name))
    else Success(Deliver(name, ch[name], payload))
  }

  /** A listener added with `on` is called after every listener registered
      before it. */
  lemma EmitAfterOn(ch: Channels, name: string, fn: Listener, payload: Payload)
    requires name in ch
    ensures Emit(On(ch, name, fn).value, name, payload).value
         == Emit(ch, name, payload).value + [Notified(name, fn, payload)]
  {
  }

  /** Re-allowing a channel drops the listeners it had. */
  lemma EmitAfterAllow(ch: Channels, name: string, payload: Payload)
    ensures Emit(Allow(ch, name), name, payload) == Success([])
  {
  }

  /** The channels the constructor allows, in order. */
  const ChannelNames: seq<string> := [
    "error",
    "changed",
    "transport:start",
    "transport:stop",
    "transport:pause",
    "transport:loop",
    "transport:position",
    "file:selected",
    "file:created",
    "file:destroyed",
    "file:updated",
    "composer:parsing",
    "composer:parsed",
    "composer:rendering",
    "composer:rendered"
  ]

  /** `allow` applied to each name in turn. */
  function AllowAll(ch: Channels, names: seq<string>): (r: Channels)
    ensures forall n :: n in r <==> n in ch || n in names
    ensures forall n :: n in names ==> r[n] == []
    ensures forall n :: n in ch && n !in names ==> r[n] == ch[n]
    decreases |names|
  {
    if names == [] then ch
    else AllowAll(Allow(ch, names[0]), names[1..])
  }

  /** The constructor: the fifteen channels, each with no listener; no file
      selected; nothing rendered. */
  function New(): (c: Controller)
    ensures forall n :: n in c.listeners <==> n in ChannelNames
    ensures forall n :: n in ChannelNames ==> c.listeners[n] == []
    ensures c.file == None && c.renderedSource == None && c.rendering == None
  {
    var names := ChannelNames;
    Controller(AllowAll(map[], names), None, None, None)
  }

  /** Right after construction, exactly the fifteen listed names are
      registered: any other name is refused by both `on` and `emit`. */
  lemma NewRegistersExactlyTheChannels(name: string, fn: Listener, payload: Payload)
    ensures |ChannelNames| == 15
    ensures On(New().listeners, name, fn).Success? <==> name in ChannelNames
    ensures Emit(New().listeners, name, payload).Success? <==> name in ChannelNames
  {
  }

  /** Every channel the constructor allows is still registered. */
  predicate Registered(c: Controller) {
    forall i :: 0 <= i < |ChannelNames| ==> ChannelNames[i] in c.listeners
  }

  /** The channels the actions emit on are among the registered ones. */
  lemma RegisteredChannels(c: Controller)
    ensures Registered(c) ==>
              && "error" in c.listeners
              && "changed" in c.listeners
              && "transport:position" in c.listeners
              && "file:selected" in c.listeners
  {
    assert ChannelNames[0] == "error" && ChannelNames[1] == "changed";
    assert ChannelNames[6] == "transport:position" && ChannelNames[7] == "file:selected";
  }

  // ---------------------------------------------------------------------
  // Rendering bookkeeping

  /** The `changed` getter: does the selected file's source differ from
      the source last rendered? Reading it with no file selected raises. */
  function Changed(c: Controller): (r: Result<bool, Error>)
    ensures r.Failure? <==> c.file.None?
    ensures r.Failure? ==> r.error == NoFileSelected
    ensures r.Success? ==> (r.value <==> c.renderedSource != Some(c.file.value.source))
  {
    if c.file.None? then Failure(NoFileSelected)
    else Success(c.renderedSource != Some(c.file.value.source))
  }

  /** The steps of `render()` up to and including the external render
      succeed, so the rendered source gets recorded. */
  predicate RendersSource(c: Controller, audio: Audio, renderer: Renderer) {
    audio.startBuffer.Pass? && c.file.Some? && renderer(c.file.value.source).Success?
  }

  /** `render()`: start the audio buffer, render the selected file's
      source, record it as rendered, then observe positions. A failure up
      to the external render leaves the state as it was; a failure of
      `observePosition` comes after the rendered source is recorded. The
      buffer already started stays started. */
  function Render(c: Controller, audio: Audio, renderer: Renderer): (r: Transition)
    ensures |r.effects| > 0 && r.effects[0] == Call(StartAudioBuffer)
    ensures r.result.Success? <==> RendersSource(c, audio, renderer) && audio.observe.Pass?
    ensures RendersSource(c, audio, renderer) ==>
              && r.state.renderedSource == Some(c.file.value.source)
              && r.state.rendering == Some(renderer(c.file.value.source).value)
              && r.state.file == c.file
              && r.state.listeners == c.listeners
              && Changed(r.state) == Success(false)
              && r.effects[|r.effects| - 1] == Call(ObservePosition)
    ensures RendersSource(c, audio, renderer) && audio.observe.Fail? ==>
              r.result == Failure(audio.observe.error)
    ensures !RendersSource(c, audio, renderer) ==> r.state == c
    ensures audio.startBuffer.Fail? ==> r.result == Failure(audio.startBuffer.error)
    ensures audio.startBuffer.Pass? && c.file.None? ==> r.result == Failure(NoFileSelected)
    ensures audio.startBuffer.Pass? && c.file.Some? && renderer(c.file.value.source).Failure? ==>
              r.result == Failure(renderer(c.file.value.source).error)
  {
    var started := [Call(StartAudioBuffer)];
    if audio.startBuffer.Fail? then Transition(c, started, Failure(audio.startBuffer.error))
    else if c.file.None? then Transition(c, started, Failure(NoFileSelected))
    else
      var source := c.file.value.source;
      var effects := started + [Call(RenderSource(source))];
      match renderer(source)
      case Failure(e) => Transition(c, effects, Failure(e))
      case Success(out) =>
        var recorded := c.(rendering := Some(out), renderedSource := Some(source));
        var observed := effects + [Call(ObservePosition)];
        if audio.observe.Fail? then Transition(recorded, observed, Failure(audio.observe.error))
        else Transition(recorded, observed, Success(()))
  }

  function FromOutcome(o: Outcome<Error>): Result<(), Error> {
    match o
    case Pass => Success(())
    case Fail(e) => Failure(e)
  }

  /** `withRendered(fn)`: render first when, and only when, `changed`
      holds; then run `fn`, here one driver call with its outcome. A failed
      render raises before `fn` runs. */
  function WithRendered(c: Controller, audio: Audio, renderer: Renderer,
                        action: DriverCall, outcome: Outcome<Error>): (r: Transition)
    ensures Changed(c).Failure? ==> r == Transition(c, [], Failure(NoFileSelected))
    ensures Changed(c) == Success(false) ==>
              r == Transition(c, [Call(action)], FromOutcome(outcome))
    ensures Changed(c) == Success(true) ==>
              && |r.effects| > 0 && r.effects[0] == Call(StartAudioBuffer)
              && (Render(c, audio, renderer).result.Failure? ==> r == Render(c, audio, renderer))
              && (Render(c, audio, renderer).result.Success? ==>
                    && r == Transition(Render(c, audio, renderer).state,
                                       Render(c, audio, renderer).effects + [Call(action)],
                                       FromOutcome(outcome))
                    && Changed(r.state) == Success(false))
    ensures r.state.listeners == c.listeners
  {
    match Changed(c)
    case Failure(e) => Transition(c, [], Failure(e))
    case Success(changed) =>
      if changed then
        var rendered := Render(c, audio, renderer);
        if rendered.result.Failure? then rendered
        else Transition(rendered.state, rendered.effects + [Call(action)], FromOutcome(outcome))
      else Transition(c, [Call(action)], FromOutcome(outcome))
  }

  /** The `catch` of every action: a raised error becomes one `error` event
      carrying `message` and the original error. Only a failure of that
      `emit` itself escapes. */
  function Catch(attempt: Transition, message: string): (r: Transition)
    ensures r.state == attempt.state
    ensures attempt.result.Success? ==> r == attempt
    ensures attempt.result.Failure? && "error" in attempt.state.listeners ==>
              && r.result == Success(())
              && r.effects == attempt.effects
                   + Deliver("error", attempt.state.listeners["error"],
                             ErrorReport(message, attempt.result.error))
    ensures attempt.result.Failure? && "error" !in attempt.state.listeners ==>
              r.result == Failure(UnregisteredEvent("error"))
  {
    if attempt.result.Success? then attempt
    else
      match Emit(attempt.state.listeners, "error", ErrorReport(message, attempt.result.error))
      case Failure(e) => Transition(attempt.state, attempt.effects, Failure(e))
      case Success(notes) => Transition(attempt.state, attempt.effects + notes, Success(()))
  }

  // ---------------------------------------------------------------------
  // Actions

  /** The messages the actions' `catch` blocks report. */
  const PlayFailed: string := "Unable to play this file :-("
  const StopFailed: string := "Unable to stop audio, oh noes!"
  const PauseFailed: string := "Unable to pause audio, oh noes!"
  const SelectFailed: string := "Unable to select file."

  /** The listeners of a channel; none when it is not registered. */
  function ListenersOf(c: Controller, name: string): seq<Listener> {
    if name in c.listeners then c.listeners[name] else []
  }

  /** The deliveries of one `error` event reporting `message` and `e`. */
  function Reported(c: Controller, message: string, e: Error): seq<Observable> {
    Deliver("error", ListenersOf(c, "error"), ErrorReport(message, e))
  }

  /** `play()`: play through `withRendered`; a failure becomes an `error`
      event. */
  function Play(c: Controller, audio: Audio, renderer: Renderer): (r: Transition)
    ensures r.state.listeners == c.listeners
    ensures Registered(c) ==> r.result.Success?
    ensures Changed(c) == Success(false) ==>
              && r.state == c
              && |r.effects| > 0 && r.effects[0] == Call(AudioPlay)
    ensures Changed(c) == Success(false) && audio.play.Pass? ==>
              r == Transition(c, [Call(AudioPlay)], Success(()))
    ensures Changed(c) == Success(true) && Render(c, audio, renderer).result.Success? ==>
              && r.state == Render(c, audio, renderer).state
              && Render(c, audio, renderer).effects + [Call(AudioPlay)] <= r.effects
    ensures Registered(c) && Changed(c) == Success(true) && Render(c, audio, renderer).result.Success? ==>
              r.effects == Render(c, audio, renderer).effects + [Call(AudioPlay)]
                + (if audio.play.Fail? then Reported(c, PlayFailed, audio.play.error) else [])
    ensures Registered(c) && c.file.None? ==>
              r.effects == Reported(c, PlayFailed, NoFileSelected)
    ensures Registered(c) && Changed(c) == Success(false) && audio.play.Fail? ==>
              r.effects == [Call(AudioPlay)] + Reported(c, PlayFailed, audio.play.error)
    ensures Registered(c) && Changed(c) == Success(true) && Render(c, audio, renderer).result.Failure? ==>
              r.effects == Render(c, audio, renderer).effects
                + Reported(c, PlayFailed, Render(c, audio, renderer).result.error)
  {
    RegisteredChannels(c);
    Catch(WithRendered(c, audio, renderer, AudioPlay, audio.play), PlayFailed)
  }

  /** `stop()`: stop the audio, then announce the zero position on
      `transport:position`; a failure becomes an `error` event. */
  function Stop(c: Controller, audio: Audio): (r: Transition)
    ensures r.state == c
    ensures Registered(c) ==> r.result.Success?
    ensures Registered(c) && audio.stop.Pass? ==>
              r.effects == [Call(AudioStop)]
                + Deliver("transport:position", ListenersOf(c, "transport:position"),
                          PositionUpdate(ZeroPosition))
    ensures Registered(c) && audio.stop.Fail? ==>
              r.effects == [Call(AudioStop)] + Reported(c, StopFailed, audio.stop.error)
  {
    RegisteredChannels(c);
    var stopped := [Call(AudioStop)];
    var attempt :=
      if audio.stop.Fail? then Transition(c, stopped, Failure(audio.stop.error))
      else
        match Emit(c.listeners, "transport:position", PositionUpdate(ZeroPosition))
        case Failure(e) => Transition(c, stopped, Failure(e))
        case Success(notes) => Transition(c, stopped + notes, Success(()));
    Catch(attempt, StopFailed)
  }

  /** `pause()`: pause the audio; a failure becomes an `error` event. */
  function Pause(c: Controller, audio: Audio): (r: Transition)
    ensures r.state == c
    ensures Registered(c) ==> r.result.Success?
    ensures audio.pause.Pass? ==> r == Transition(c, [Call(AudioPause)], Success(()))
    ensures Registered(c) && audio.pause.Fail? ==>
              r.effects == [Call(AudioPause)] + Reported(c, PauseFailed, audio.pause.error)
  {
    RegisteredChannels(c);
    Catch(Transition(c, [Call(AudioPause)], FromOutcome(audio.pause)), PauseFailed)
  }

  /** `selectFile(file)`: the file becomes the selected one before anything
      can fail; the selection is then recorded in the workspace, the
      workspace saved without waiting, and `file:selected` emitted. A
      failure becomes an `error` event. */
  function SelectFile(c: Controller, f: File, persist: Outcome<Error>): (r: Transition)
    ensures r.state == c.(file := Some(f))
    ensures Registered(c) ==> r.result.Success?
    ensures Registered(c) && persist.Pass? ==>
              r.effects == [Call(SelectInWorkspace(f.id)), Call(SaveWorkspace)]
                + Deliver("file:selected", ListenersOf(c, "file:selected"), FileSelected(f))
    ensures Registered(c) && persist.Fail? ==>
              r.effects == [Call(SelectInWorkspace(f.id))] + Reported(c, SelectFailed, persist.error)
  {
    RegisteredChannels(c);
    var selected := c.(file := Some(f));
    var recorded := [Call(SelectInWorkspace(f.id))];
    var attempt :=
      if persist.Fail? then Transition(selected, recorded, Failure(persist.error))
      else
        var saved := recorded + [Call(SaveWorkspace)];
        match Emit(selected.listeners, "file:selected", FileSelected(f))
        case Failure(e) => Transition(selected, saved, Failure(e))
        case Success(notes) => Transition(selected, saved + notes, Success(()));
    Catch(attempt, SelectFailed)
  }

  /** `setFileSource(source)`: replace the selected file's source through
      `setProperties` (whose outcome is `update`), save it without waiting,
      and emit `changed` with the new value of `changed`. There is no
      `catch`: with no file selected it raises before calling anything, and
      when `setProperties` raises, nothing after that call happens. */
  function SetFileSource(c: Controller, source: string, update: Outcome<Error>): (r: Transition)
    ensures r.result.Failure? <==> c.file.None? || update.Fail? || "changed" !in c.listeners
    ensures c.file.None? ==> r == Transition(c, [], Failure(NoFileSelected))
    ensures c.file.Some? && update.Fail? ==>
              r == Transition(c, [Call(UpdateSource(c.file.value.id, source))], Failure(update.error))
    ensures c.file.Some? && update.Pass? ==>
              && r.state == c.(file := Some(c.file.value.(source := source)))
              && |r.effects| > 1
              && r.effects[..2] == [Call(UpdateSource(c.file.value.id, source)),
                                    Call(SaveFile(c.file.value.(source := source)))]
    ensures r.result.Success? ==>
              |r.effects| > 1 && r.effects[2..] == Deliver("changed", c.listeners["changed"],
                                        ChangedFlag(Changed(r.state).value))
  {
    if c.file.None? then Transition(c, [], Failure(NoFileSelected))
    else
      var updated := [Call(UpdateSource(c.file.value.id, source))];
      if update.Fail? then Transition(c, updated, Failure(update.error))
      else
        var f := c.file.value.(source := source);
        var next := c.(file := Some(f));
        var saved := updated + [Call(SaveFile(f))];
        match Emit(next.listeners, "changed", ChangedFlag(next.renderedSource != Some(source)))
        case Failure(e) => Transition(next, saved, Failure(e))
        case Success(notes) => Transition(next, saved + notes, Success(()))
  }

  // ---------------------------------------------------------------------
  // Properties across actions

  /** The constructor registers every allowed channel. */
  lemma NewIsRegistered()
    ensures Registered(New())
  {
  }

  /** `changed` is initially true: once a file is selected on a fresh
      controller, its source differs from the (null) rendered source. */
  lemma ChangedInitially(f: File, persist: Outcome<Error>)
    ensures Changed(SelectFile(New(), f, persist).state) == Success(true)
  {
    assert New().renderedSource == None;
    ChangedBeforeFirstRender(New(), f, persist);
  }

  /** On a controller that has rendered nothing, any selected file counts
      as changed. */
  lemma ChangedBeforeFirstRender(c: Controller, f: File, persist: Outcome<Error>)
    requires c.renderedSource == None
    ensures Changed(SelectFile(c, f, persist).state) == Success(true)
  {
  }

  /** After a successful `withRendered`, a second one does not render
      again: its only effect is the action itself. */
  lemma WithRenderedRendersOnce(
    c: Controller, audio: Audio, renderer: Renderer,
    action: DriverCall, outcome: Outcome<Error>,
    audio2: Audio, action2: DriverCall, outcome2: Outcome<Error>)
    requires WithRendered(c, audio, renderer, action, outcome).result.Success?
    ensures var c2 := WithRendered(c, audio, renderer, action, outcome).state;
            WithRendered(c2, audio2, renderer, action2, outcome2)
              == Transition(c2, [Call(action2)], FromOutcome(outcome2))
  {
  }

  /** Editing the source back to what was rendered clears `changed`;
      editing it to anything else sets it; an edit whose `setProperties`
      raises leaves it clear. */
  lemma SetFileSourceAfterRender(c: Controller, audio: Audio, renderer: Renderer,
                                 source: string, update: Outcome<Error>)
    requires Render(c, audio, renderer).result.Success?
    ensures var rendered := Render(c, audio, renderer).state;
            Changed(SetFileSource(rendered, source, update).state)
              == Success(update.Pass? && source != c.file.value.source)
  {
  }

  /** A render whose `observePosition` raises has already recorded the
      source as rendered: the action that asked for it fails, yet the next
      `withRendered` does not render again and runs its action directly. */
  lemma ObserveFailureSkipsNextRender(
    c: Controller, audio: Audio, renderer: Renderer,
    action: DriverCall, outcome: Outcome<Error>,
    audio2: Audio, action2: DriverCall, outcome2: Outcome<Error>)
    requires Changed(c) == Success(true)
    requires RendersSource(c, audio, renderer) && audio.observe.Fail?
    ensures WithRendered(c, audio, renderer, action, outcome).result.Failure?
    ensures var c2 := WithRendered(c, audio, renderer, action, outcome).state;
            WithRendered(c2, audio2, renderer, action2, outcome2)
              == Transition(c2, [Call(action2)], FromOutcome(outcome2))
  {
  }
}

=== FILE: instrument.dfy ===
/**
 The instrument model (`InstrumentModel` in
 packages/core/src/models/instrument.js): a node whose patch type is the
 constant "instrument", with three declared properties. The back-reference
 to its session is declared non-serialisable.
 */
module Instrument {
  import opened Common
  import opened PatchGraph

  /** The patch type every instrument plugs into. */
  const InstrumentPatchType: string := "instrument"

  /** The declared type of a model property; `Unspecified` when the
      declaration names none. */
  datatype PropertyType = Unspecified | StringType | FunctionType

  /** One entry of a model's static property table. `jsonExcluded` is the
      `json: false` marking. */
  datatype PropertyDecl = PropertyDecl(key: string, typ: PropertyType, jsonExcluded: bool)

  /** The instrument's static property table, in declaration order. */
  const InstrumentProperties: seq<PropertyDecl> := [
    PropertyDecl("session", Unspecified, true),
    PropertyDecl("name", StringType, false),
    PropertyDecl("fn", FunctionType, false)
  ]

  /** An instrument: its owning session (a back-reference, read only to
      resolve patches), its name and its builder function. */
  datatype InstrumentModel = InstrumentModel(session: Session, name: string, fn: BuilderFn)

  /** The keys of the properties that appear in the serialised form, in
      declaration order. */
  function SerialisedKeys(decls: seq<PropertyDecl>): (r: seq<string>)
    ensures forall k :: k in r <==> exists i :: 0 <= i < |decls| && decls[i].key == k && !decls[i].jsonExcluded
    ensures |r| <= |decls|
    decreases |decls|
  {
    if decls == [] then []
    else
      var rest := SerialisedKeys(decls[1..]);
      assert forall i :: 0 < i < |decls| ==> decls[i] == decls[1..][i - 1];
      (if decls[0].jsonExcluded then [] else [decls[0].key]) + rest
  }

  /** The instrument declares exactly `session`, `name` and `fn`; `name` is
      a String, `fn` a Function, and only `session` is kept out of the
      serialised form. */
  lemma InstrumentDeclarations()
    ensures |InstrumentProperties| == 3
    ensures (set d | d in InstrumentProperties :: d.key) == {"session", "name", "fn"}
    ensures forall d :: d in InstrumentProperties && d.key == "session" ==>
              d.jsonExcluded && d.typ == Unspecified
    ensures forall d :: d in InstrumentProperties && d.key == "name" ==> d.typ == StringType
    ensures forall d :: d in InstrumentProperties && d.key == "fn" ==> d.typ == FunctionType
    ensures SerialisedKeys(InstrumentProperties) == ["name", "fn"]
  {
    assert InstrumentProperties[1..][1..] == [InstrumentProperties[2]];
  }

  /** The node an instrument presents to the resolver. */
  function AsNode(i: InstrumentModel): (n: Node)
    ensures n.patchType == InstrumentPatchType
    ensures n.name == i.name
  {
    Node(InstrumentPatchType, i.name)
  }

  /** The instrument's inputs: the patches of its session whose output side
      is the instrument named `i.name`, in session order, a patch listed
      twice in the session appearing twice. */
  function Inputs(i: InstrumentModel): (r: seq<Patch>)
    ensures r == InboundOf(i.session.patches, AsNode(i))
    ensures forall p :: p in r <==>
              p in i.session.patches && p.outputType == "instrument" && p.output == i.name
    ensures IsSubsequence(r, i.session.patches)
  {
    PatchGraph.Inputs(i.session, AsNode(i))
  }

  /** The instrument's outputs: the patches of its session whose input side
      is the instrument named `i.name` and that are not already inputs, in
      session order and with duplicates kept. */
  function Outputs(i: InstrumentModel): (r: seq<Patch>)
    ensures r == OutboundOf(i.session.patches, AsNode(i))
    ensures forall p :: p in r <==>
              && p in i.session.patches
              && p.inputType == "instrument" && p.input == i.name
              && !(p.outputType == "instrument" && p.output == i.name)
    ensures IsSubsequence(r, i.session.patches)
  {
    PatchGraph.Outputs(i.session, AsNode(i))
  }
}

=== FILE: library.dfy ===
/**
 The library composer (`LibraryComposer` in
 packages/compose/src/library.js): the DSL verbs an author calls inside
 `library(name, fn)` to register entities in the library's collections.

 `instrument` and `effect` append a `{name, fn}` record. `snippet`,
 `template` and `demo` first compose a child model with the matching child
 composer and then append that model. `track` and `phrase` always raise
 `ComposerError('not implemented')`.

 The library model is a record of five sequences. A collection's `add` is
 an append. Composing a child is an external, possibly-failing step,
 passed in as the function `compose`.
 */
module LibraryComposer {
  import opened Common

  /** The five named collections of a library model. */
  datatype CollectionName = Instruments | Effects | Snippets | Templates | Demos

  /** The child composer classes a nested verb delegates to. */
  datatype ComposerKind = SnippetComposer | TemplateComposer | DemoComposer

  /** A model produced by a child composer. Its contents are whatever the
      author's function built; the model keeps only an opaque summary. */
  datatype ChildModel = ChildModel(kind: ComposerKind, name: string, contents: nat)

  /** What a collection holds: a plain `{name, fn}` record, or a composed
      child model. */
  datatype Entry = Definition(name: string, fn: BuilderFn) | Composed(model: ChildModel)

  /** A library model: its name and its five collections, each in insertion
      order. */
  datatype LibraryModel = LibraryModel(
    name: string,
    instruments: seq<Entry>,
    effects: seq<Entry>,
    snippets: seq<Entry>,
    templates: seq<Entry>,
    demos: seq<Entry>)
  {
    /** `this.model[collection]`. */
    function Get(c: CollectionName): seq<Entry> {
      match c
      case Instruments => instruments
      case Effects => effects
      case Snippets => snippets
      case Templates => templates
      case Demos => demos
    }

    /** `this.model[collection].add(e)`, with `add` as an append. */
    function Add(c: CollectionName, e: Entry): (r: LibraryModel)
      ensures Appended(this, r, c, e)
    {
      match c
      case Instruments => this.(instruments := instruments + [e])
      case Effects => this.(effects := effects + [e])
      case Snippets => this.(snippets := snippets + [e])
      case Templates => this.(templates := templates + [e])
      case Demos => this.(demos := demos + [e])
    }
  }

  /** `after` is `before` with `e` appended to collection `c`, and nothing
      else changed. */
  predicate Appended(before: LibraryModel, after: LibraryModel, c: CollectionName, e: Entry) {
    && after.name == before.name
    && after.Get(c) == before.Get(c) + [e]
    && forall d :: d != c ==> after.Get(d) == before.Get(d)
  }

  /** `after` keeps the name of `before`, and each of its collections
      starts with the corresponding collection of `before`. */
  predicate Grows(before: LibraryModel, after: LibraryModel) {
    && after.name == before.name
    && before.instruments <= after.instruments
    && before.effects <= after.effects
    && before.snippets <= after.snippets
    && before.templates <= after.templates
    && before.demos <= after.demos
  }

  /** The composer a child composition returns; `model` is its product. */
  datatype ChildComposer = ChildComposer(model: ChildModel)

  /** Errors a verb can raise: the composer's own error, or whatever the
      author's function raised while a child was being composed. */
  datatype Error = ComposerError(message: string) | Raised(cause: nat)

  /** `composer.compose(name, fn)` for a child composer class: external,
      and it may fail. */
  type Compose = (ComposerKind, string, BuilderFn) -> Result<ChildComposer, Error>

  /** What a verb returns when it does not raise. */
  datatype Returned = Nothing | Nested(composer: ChildComposer)

  /** The library after a verb, with what the verb returned or raised. */
  datatype Step = Step(library: LibraryModel, result: Result<Returned, Error>)

  const NotImplemented: Error := ComposerError("not implemented")

  /** `instrument(name, fn)`: appends `{name, fn}` to `instruments`. */
  function Instrument(lib: LibraryModel, name: string, fn: BuilderFn): (r: Step)
    ensures r.result == Success(Nothing)
    ensures Appended(lib, r.library, Instruments, Definition(name, fn))
  {
    Step(lib.Add(Instruments, Definition(name, fn)), Success(Nothing))
  }

  /** `effect(name, fn)`: appends `{name, fn}` to `effects`. */
  function Effect(lib: LibraryModel, name: string, fn: BuilderFn): (r: Step)
    ensures r.result == Success(Nothing)
    ensures Appended(lib, r.library, Effects, Definition(name, fn))
  {
    Step(lib.Add(Effects, Definition(name, fn)), Success(Nothing))
  }

  /** `track(name, fn)`: not implemented; raises and registers nothing. */
  function Track(lib: LibraryModel, name: string, fn: BuilderFn): (r: Step)
    ensures r.library == lib
    ensures r.result == Failure(ComposerError("not implemented"))
  {
    Step(lib, Failure(NotImplemented))
  }

  /** `phrase(name, fn)`: not implemented; raises and registers nothing. */
  function Phrase(lib: LibraryModel, name: string, fn: BuilderFn): (r: Step)
    ensures r.library == lib
    ensures r.result == Failure(ComposerError("not implemented"))
  {
    Step(lib, Failure(NotImplemented))
  }

  /** `collectionRecordComposer`: compose the child first; only when that
      succeeds, append its model to `collection` and return the very
      composer whose model was appended. A failing child leaves the library
      as it was and its error propagates unchanged. */
  function CollectionRecordComposer(
    lib: LibraryModel, kind: ComposerKind, collection: CollectionName,
    name: string, fn: BuilderFn, compose: Compose): (r: Step)
    ensures compose(kind, name, fn).Failure? ==>
              r.library == lib && r.result == Failure(compose(kind, name, fn).error)
    ensures compose(kind, name, fn).Success? ==>
              && r.result == Success(Nested(compose(kind, name, fn).value))
              && Appended(lib, r.library, collection, Composed(r.result.value.composer.model))
  {
    match compose(kind, name, fn)
    case Failure(e) => Step(lib, Failure(e))
    case Success(child) => Step(lib.Add(collection, Composed(child.model)), Success(Nested(child)))
  }

  /** `snippet(name, fn)`: composes a snippet and files it under
      `snippets`, and never under another collection. */
  function Snippet(lib: LibraryModel, name: string, fn: BuilderFn, compose: Compose): (r: Step)
    ensures forall d :: d != Snippets ==> r.library.Get(d) == lib.Get(d)
    ensures r.result.Success? <==> compose(SnippetComposer, name, fn).Success?
    ensures r.result.Success? ==>
              && r.result.value.Nested?
              && compose(SnippetComposer, name, fn) == Success(r.result.value.composer)
              && r.library.snippets == lib.snippets + [Composed(r.result.value.composer.model)]
    ensures r.result.Failure? ==> r.library == lib
  {
    CollectionRecordComposer(lib, SnippetComposer, Snippets, name, fn, compose)
  }

  /** `template(name, fn)`: composes a template and files it under
      `templates`, and never under another collection. */
  function Template(lib: LibraryModel, name: string, fn: BuilderFn, compose: Compose): (r: Step)
    ensures forall d :: d != Templates ==> r.library.Get(d) == lib.Get(d)
    ensures r.result.Success? <==> compose(TemplateComposer, name, fn).Success?
    ensures r.result.Success? ==>
              && r.result.value.Nested?
              && compose(TemplateComposer, name, fn) == Success(r.result.value.composer)
              && r.library.templates == lib.templates + [Composed(r.result.value.composer.model)]
    ensures r.result.Failure? ==> r.library == lib
  {
    CollectionRecordComposer(lib, TemplateComposer, Templates, name, fn, compose)
  }

  /** `demo(name, fn)`: composes a demo and files it under `demos`, and
      never under another collection. */
  function Demo(lib: LibraryModel, name: string, fn: BuilderFn, compose: Compose): (r: Step)
    ensures forall d :: d != Demos ==> r.library.Get(d) == lib.Get(d)
    ensures r.result.Success? <==> compose(DemoComposer, name, fn).Success?
    ensures r.result.Success? ==>
              && r.result.value.Nested?
              && compose(DemoComposer, name, fn) == Success(r.result.value.composer)
              && r.library.demos == lib.demos + [Composed(r.result.value.composer.model)]
    ensures r.result.Failure? ==> r.library == lib
  {
    CollectionRecordComposer(lib, DemoComposer, Demos, name, fn, compose)
  }

  // An author's building function, seen as the straight-line sequence of
  // awaited verb calls it makes. A raised error stops the function; what
  // earlier calls added stays in the library. A nested verb's own building
  // function is taken not to call the parent composer's verbs.

  datatype Call =
    | InstrumentCall(name: string, fn: BuilderFn)
    | EffectCall(name: string, fn: BuilderFn)
    | TrackCall(name: string, fn: BuilderFn)
    | PhraseCall(name: string, fn: BuilderFn)
    | SnippetCall(name: string, fn: BuilderFn)
    | TemplateCall(name: string, fn: BuilderFn)
    | DemoCall(name: string, fn: BuilderFn)

  /** The entry a nested verb adds to `c` when its child composes: the
      child's model, in the verb's own collection and no other. */
  function ChildEntries(compose: Compose, kind: ComposerKind, collection: CollectionName,
                        name: string, fn: BuilderFn, c: CollectionName): seq<Entry> {
    if c == collection && compose(kind, name, fn).Success?
    then [Composed(compose(kind, name, fn).value.model)]
    else []
  }

  /** The entries one call adds to `c` when it does not raise. */
  function CallEntries(call: Call, c: CollectionName, compose: Compose): seq<Entry> {
    match call
    case InstrumentCall(name, fn) => if c == Instruments then [Definition(name, fn)] else []
    case EffectCall(name, fn) => if c == Effects then [Definition(name, fn)] else []
    case TrackCall(_, _) => []
    case PhraseCall(_, _) => []
    case SnippetCall(name, fn) => ChildEntries(compose, SnippetComposer, Snippets, name, fn, c)
    case TemplateCall(name, fn) => ChildEntries(compose, TemplateComposer, Templates, name, fn, c)
    case DemoCall(name, fn) => ChildEntries(compose, DemoComposer, Demos, name, fn, c)
  }

  /** The entries a call sequence adds to `c`, in call order. */
  function Entries(calls: seq<Call>, c: CollectionName, compose: Compose): seq<Entry>
    decreases |calls|
  {
    if calls == [] then []
    else CallEntries(calls[0], c, compose) + Entries(calls[1..], c, compose)
  }

  /** `lib` with every collection followed by the entries `calls` declare
      for it. */
  function Extended(lib: LibraryModel, calls: seq<Call>, compose: Compose): LibraryModel {
    LibraryModel(
      lib.name,
      lib.instruments + Entries(calls, Instruments, compose),
      lib.effects + Entries(calls, Effects, compose),
      lib.snippets + Entries(calls, Snippets, compose),
      lib.templates + Entries(calls, Templates, compose),
      lib.demos + Entries(calls, Demos, compose))
  }

  /** `lib` with every collection followed by the entries `call` declares
      for it. */
  function ExtendedByCall(lib: LibraryModel, call: Call, compose: Compose): LibraryModel {
    LibraryModel(
      lib.name,
      lib.instruments + CallEntries(call, Instruments, compose),
      lib.effects + CallEntries(call, Effects, compose),
      lib.snippets + CallEntries(call, Snippets, compose),
      lib.templates + CallEntries(call, Templates, compose),
      lib.demos + CallEntries(call, Demos, compose))
  }

  /** One verb call. It keeps the library's name and only extends
      collections; when it does not raise, every collection gains exactly
      the entries the call declares. */
  function Apply(lib: LibraryModel, call: Call, compose: Compose): (r: Step)
    ensures Grows(lib, r.library)
    ensures r.result.Success? ==> r.library == ExtendedByCall(lib, call, compose)
    ensures r.result.Failure? ==> r.library == lib
  {
    match call
    case InstrumentCall(name, fn) => Instrument(lib, name, fn)
    case EffectCall(name, fn) => Effect(lib, name, fn)
    case TrackCall(name, fn) => Track(lib, name, fn)
    case PhraseCall(name, fn) => Phrase(lib, name, fn)
    case SnippetCall(name, fn) => Snippet(lib, name, fn, compose)
    case TemplateCall(name, fn) => Template(lib, name, fn, compose)
    case DemoCall(name, fn) => Demo(lib, name, fn, compose)
  }

  /** Runs the calls in order, stopping at the first one that raises. Each
      collection only grows, and the library keeps its name. When every
      call succeeds, every collection gains exactly the declared entries,
      in call order. */
  function Run(lib: LibraryModel, calls: seq<Call>, compose: Compose): (r: Step)
    ensures Grows(lib, r.library)
    ensures r.result.Success? ==> r.result == Success(Nothing)
    ensures r.result.Success? ==> r.library == Extended(lib, calls, compose)
    decreases |calls|
  {
    if calls == [] then Step(lib, Success(Nothing))
    else
      var s := Apply(lib, calls[0], compose);
      if s.result.Failure? then s
      else
        var r := Run(s.library, calls[1..], compose);
        RunStep(lib, s.library, r, calls, compose);
        r
  }

  /** Chains one successful call with the run of the remaining ones. */
  lemma RunStep(lib: LibraryModel, mid: LibraryModel, r: Step, calls: seq<Call>, compose: Compose)
    requires calls != []
    requires Grows(lib, mid) && Grows(mid, r.library)
    requires mid == ExtendedByCall(lib, calls[0], compose)
    requires r.result.Success? ==> r.library == Extended(mid, calls[1..], compose)
    ensures Grows(lib, r.library)
    ensures r.result.Success? ==> r.library == Extended(lib, calls, compose)
  {
    GrowsTransitive(lib, mid, r.library);
    if r.result.Success? {
      var after := r.library;
      EntriesStep(lib.instruments, mid.instruments, after.instruments, calls, Instruments, compose);
      EntriesStep(lib.effects, mid.effects, after.effects, calls, Effects, compose);
      EntriesStep(lib.snippets, mid.snippets, after.snippets, calls, Snippets, compose);
      EntriesStep(lib.templates, mid.templates, after.templates, calls, Templates, compose);
      EntriesStep(lib.demos, mid.demos, after.demos, calls, Demos, compose);
    }
  }

  /** Growing twice is growing. */
  lemma GrowsTransitive(a: LibraryModel, b: LibraryModel, c: LibraryModel)
    requires Grows(a, b) && Grows(b, c)
    ensures Grows(a, c)
  {
    assert a.instruments <= c.instruments && a.effects <= c.effects;
    assert a.snippets <= c.snippets && a.templates <= c.templates;
  }

  /** One collection's entries after the first call, then after the rest. */
  lemma EntriesStep(before: seq<Entry>, mid: seq<Entry>, after: seq<Entry>,
                    calls: seq<Call>, c: CollectionName, compose: Compose)
    requires calls != []
    requires mid == before + CallEntries(calls[0], c, compose)
    requires after == mid + Entries(calls[1..], c, compose)
    ensures after == before + Entries(calls, c, compose)
  {
    var head := CallEntries(calls[0], c, compose);
    var tail := Entries(calls[1..], c, compose);
    assert Entries(calls, c, compose) == head + tail;
    assert (before + head) + tail == before + (head + tail);
  }

  /** The run of `calls` stops at call `k`: the calls before it run to
      completion, the library holds exactly their entries, and call `k`
      raises, adding nothing, with the run's error. */
  predicate StopsAt(lib: LibraryModel, calls: seq<Call>, compose: Compose, k: nat)
    requires k < |calls|
  {
    && Run(lib, calls[..k], compose) == Step(Extended(lib, calls[..k], compose), Success(Nothing))
    && Apply(Extended(lib, calls[..k], compose), calls[k], compose) == Run(lib, calls, compose)
  }

  /** A run that raises stops at its first raising call. */
  lemma {:induction false} RunStopsAtFirstRaise(lib: LibraryModel, calls: seq<Call>, compose: Compose)
    requires Run(lib, calls, compose).result.Failure?
    ensures exists k: nat :: k < |calls| && StopsAt(lib, calls, compose, k)
    decreases |calls|
  {
    var s := Apply(lib, calls[0], compose);
    if s.result.Failure? {
      assert calls[..0] == [];
      assert Extended(lib, [], compose) == lib;
      assert StopsAt(lib, calls, compose, 0);
    } else {
      RunStopsAtFirstRaise(s.library, calls[1..], compose);
      var j: nat :| j < |calls[1..]| && StopsAt(s.library, calls[1..], compose, j);
      StopsAtShift(lib, calls, compose, j);
    }
  }

  /** Stopping at `j` after a successful first call is stopping at `j + 1`. */
  lemma StopsAtShift(lib: LibraryModel, calls: seq<Call>, compose: Compose, j: nat)
    requires j + 1 < |calls|
    requires Apply(lib, calls[0], compose).result.Success?
    requires StopsAt(Apply(lib, calls[0], compose).library, calls[1..], compose, j)
    ensures StopsAt(lib, calls, compose, j + 1)
  {
    var mid := Apply(lib, calls[0], compose).library;
    var prefix := calls[..j + 1];
    assert prefix[0] == calls[0] && prefix[1..] == calls[1..][..j];
    assert Run(lib, prefix, compose) == Run(mid, calls[1..][..j], compose);
    assert Extended(lib, prefix, compose) == Run(lib, prefix, compose).library;
    assert calls[j + 1] == calls[1..][j];
  }

  /** A straight-line call sequence that contains `track` or `phrase`
      never completes successfully: either that call raises, or an earlier
      one already did. */
  lemma {:induction false} UnimplementedVerbFails(
    lib: LibraryModel, calls: seq<Call>, compose: Compose, i: nat)
    requires i < |calls|
    requires calls[i].TrackCall? || calls[i].PhraseCall?
    ensures Run(lib, calls, compose).result.Failure?
    decreases i
  {
    var s := Apply(lib, calls[0], compose);
    if i > 0 && s.result.Success? {
      UnimplementedVerbFails(s.library, calls[1..], compose, i - 1);
    }
  }
}

=== FILE: patch_graph.dfy ===
/**
 The patch-graph resolver of a node model (`BaseNodeModel` in
 packages/core/src/models/base/node.js).

 A session keeps one flat list of patches. A node, identified by its patch
 type and its name, discovers its connections by scanning that list once,
 in order. The naming is inverted on purpose: a patch whose OUTPUT side
 names the node is one of the node's inputs (signal flows from
 `patch.input` into `patch.output`), and a patch whose INPUT side names the
 node is one of the node's outputs. The second test is an `else if`, so a
 patch naming the node on both sides is only ever an input.
 */
module PatchGraph {
  import opened Common

  /** A connection record: signal flows from the `input` node into the
      `output` node. It names its endpoints; it does not own them. */
  datatype Patch = Patch(inputType: string, input: string, outputType: string, output: string)

  /** The part of a session the resolver reads: its flat list of patches. */
  datatype Session = Session(patches: seq<Patch>)

  /** A node as the resolver sees it: its patch type and its name. */
  datatype Node = Node(patchType: string, name: string)

  /** The accumulator of the scan, `{inputs, outputs}`. */
  datatype Connections = Connections(inputs: seq<Patch>, outputs: seq<Patch>)

  /** The first test of the scan: the node is the patch's output side. */
  predicate FeedsInto(p: Patch, n: Node) {
    p.outputType == n.patchType && p.output == n.name
  }

  /** The second test of the scan: the node is the patch's input side. */
  predicate DrawsFrom(p: Patch, n: Node) {
    p.inputType == n.patchType && p.input == n.name
  }

  /** One step of the reduce: push `p` onto `inputs` when it feeds the node,
      otherwise onto `outputs` when it draws from the node, otherwise keep
      the accumulator. */
  function Classify(acc: Connections, p: Patch, n: Node): Connections {
    if FeedsInto(p, n) then acc.(inputs := acc.inputs + [p])
    else if DrawsFrom(p, n) then acc.(outputs := acc.outputs + [p])
    else acc
  }

  /** The `patches` getter: a left fold of `Classify` over the session's
      patches, starting from empty lists. */
  function Resolve(ps: seq<Patch>, n: Node): (r: Connections)
    ensures forall i :: 0 <= i < |r.inputs| ==> FeedsInto(r.inputs[i], n)
    ensures forall i :: 0 <= i < |r.outputs| ==>
              DrawsFrom(r.outputs[i], n) && !FeedsInto(r.outputs[i], n)
    ensures multiset(r.inputs) + multiset(r.outputs) <= multiset(ps)
    ensures |r.inputs| + |r.outputs| <= |ps|
    decreases |ps|
  {
    if ps == [] then Connections([], [])
    else
      var prefix := ps[..|ps| - 1];
      assert ps == prefix + [ps[|ps| - 1]];
      Classify(Resolve(prefix, n), ps[|ps| - 1], n)
  }

  // Reference definitions: the connections of a node stated as filters
  // over the patch list, independent of the fold above.

  /** The patches that name `n` as their output side, in session order. */
  function InboundOf(ps: seq<Patch>, n: Node): seq<Patch>
    decreases |ps|
  {
    if ps == [] then []
    else (if FeedsInto(ps[0], n) then [ps[0]] else []) + InboundOf(ps[1..], n)
  }

  /** The patches that name `n` as their input side and not as their output
      side, in session order. */
  function OutboundOf(ps: seq<Patch>, n: Node): seq<Patch>
    decreases |ps|
  {
    if ps == [] then []
    else
      (if DrawsFrom(ps[0], n) && !FeedsInto(ps[0], n) then [ps[0]] else [])
      + OutboundOf(ps[1..], n)
  }

  /** The patches that name `n` as their input side, whatever their output
      side: the symmetric reading, which the scan does not implement. */
  function AllDrawingFrom(ps: seq<Patch>, n: Node): seq<Patch>
    decreases |ps|
  {
    if ps == [] then []
    else (if DrawsFrom(ps[0], n) then [ps[0]] else []) + AllDrawingFrom(ps[1..], n)
  }

  lemma {:induction false} InboundOfSnoc(ps: seq<Patch>, p: Patch, n: Node)
    ensures InboundOf(ps + [p], n) == InboundOf(ps, n) + (if FeedsInto(p, n) then [p] else [])
    decreases |ps|
  {
    if ps != [] {
      assert (ps + [p])[1..] == ps[1..] + [p];
      InboundOfSnoc(ps[1..], p, n);
    }
  }

  lemma {:induction false} OutboundOfSnoc(ps: seq<Patch>, p: Patch, n: Node)
    ensures OutboundOf(ps + [p], n)
         == OutboundOf(ps, n) + (if DrawsFrom(p, n) && !FeedsInto(p, n) then [p] else [])
    decreases |ps|
  {
    if ps != [] {
      assert (ps + [p])[1..] == ps[1..] + [p];
      OutboundOfSnoc(ps[1..], p, n);
    }
  }

  /** The fold computes exactly the two filters: the inputs are the patches
      feeding the node, and the outputs are the patches drawing from it that
      do not also feed it, each in session order. */
  lemma {:induction false} ResolveIsFilter(ps: seq<Patch>, n: Node)
    ensures Resolve(ps, n).inputs == InboundOf(ps, n)
    ensures Resolve(ps, n).outputs == OutboundOf(ps, n)
    decreases |ps|
  {
    if ps != [] {
      var prefix := ps[..|ps| - 1];
      var last := ps[|ps| - 1];
      assert ps == prefix + [last];
      ResolveIsFilter(prefix, n);
      InboundOfSnoc(prefix, last, n);
      OutboundOfSnoc(prefix, last, n);
    }
  }

  /** A patch is an input of `n` exactly when it is in the session and its
      output side is `n`. */
  lemma {:induction false} InboundMembership(ps: seq<Patch>, n: Node, p: Patch)
    ensures p in InboundOf(ps, n) <==> p in ps && FeedsInto(p, n)
    decreases |ps|
  {
    if ps != [] {
      InboundMembership(ps[1..], n, p);
      assert ps == [ps[0]] + ps[1..];
    }
  }

  /** A patch is an output of `n` exactly when it is in the session, its
      input side is `n` and its output side is not `n`. */
  lemma {:induction false} OutboundMembership(ps: seq<Patch>, n: Node, p: Patch)
    ensures p in OutboundOf(ps, n) <==> p in ps && DrawsFrom(p, n) && !FeedsInto(p, n)
    decreases |ps|
  {
    if ps != [] {
      OutboundMembership(ps[1..], n, p);
      assert ps == [ps[0]] + ps[1..];
    }
  }

  lemma {:induction false} AllDrawingMembership(ps: seq<Patch>, n: Node, p: Patch)
    ensures p in AllDrawingFrom(ps, n) <==> p in ps && DrawsFrom(p, n)
    decreases |ps|
  {
    if ps != [] {
      AllDrawingMembership(ps[1..], n, p);
      assert ps == [ps[0]] + ps[1..];
    }
  }

  /** Both result lists keep the relative order the patches have in the
      session. */
  lemma {:induction false} ResolvePreservesOrder(ps: seq<Patch>, n: Node)
    ensures IsSubsequence(Resolve(ps, n).inputs, ps)
    ensures IsSubsequence(Resolve(ps, n).outputs, ps)
  {
    ResolveIsFilter(ps, n);
    InboundIsSubsequence(ps, n);
    OutboundIsSubsequence(ps, n);
  }

  lemma {:induction false} InboundIsSubsequence(ps: seq<Patch>, n: Node)
    ensures IsSubsequence(InboundOf(ps, n), ps)
    decreases |ps|
  {
    if ps != [] {
      InboundIsSubsequence(ps[1..], n);
      if FeedsInto(ps[0], n) {
        assert InboundOf(ps, n) == [ps[0]] + InboundOf(ps[1..], n);
        assert InboundOf(ps, n)[1..] == InboundOf(ps[1..], n);
      } else {
        assert InboundOf(ps, n) == InboundOf(ps[1..], n);
        SubsequenceCons(InboundOf(ps[1..], n), ps[1..], ps[0]);
        assert ps == [ps[0]] + ps[1..];
      }
    }
  }

  lemma {:induction false} OutboundIsSubsequence(ps: seq<Patch>, n: Node)
    ensures IsSubsequence(OutboundOf(ps, n), ps)
    decreases |ps|
  {
    if ps != [] {
      OutboundIsSubsequence(ps[1..], n);
      if DrawsFrom(ps[0], n) && !FeedsInto(ps[0], n) {
        assert OutboundOf(ps, n) == [ps[0]] + OutboundOf(ps[1..], n);
        assert OutboundOf(ps, n)[1..] == OutboundOf(ps[1..], n);
      } else {
        assert OutboundOf(ps, n) == OutboundOf(ps[1..], n);
        SubsequenceCons(OutboundOf(ps[1..], n), ps[1..], ps[0]);
        assert ps == [ps[0]] + ps[1..];
      }
    }
  }

  /** A patch naming the node on both sides (a self-loop) is counted once,
      as an input, and never as an output. */
  lemma {:induction false} SelfLoopIsInputOnly(ps: seq<Patch>, n: Node, p: Patch)
    requires p in ps
    requires FeedsInto(p, n) && DrawsFrom(p, n)
    ensures p in Resolve(ps, n).inputs
    ensures p !in Resolve(ps, n).outputs
  {
    ResolveIsFilter(ps, n);
    InboundMembership(ps, n, p);
    OutboundMembership(ps, n, p);
  }

  /** No patch is both an input and an output of the same node. */
  lemma {:induction false} ResolveDisjoint(ps: seq<Patch>, n: Node)
    ensures forall p :: p in Resolve(ps, n).inputs ==> p !in Resolve(ps, n).outputs
  {
  }

  /** A node with no patch naming it on either side resolves to empty lists;
      patches naming other nodes or types are inert. Conversely, empty lists
      mean no patch names the node. */
  lemma {:induction false} NoMatchIsEmpty(ps: seq<Patch>, n: Node)
    ensures (forall p :: p in ps ==> !FeedsInto(p, n) && !DrawsFrom(p, n))
        <==> Resolve(ps, n) == Connections([], [])
  {
    ResolveIsFilter(ps, n);
    var r := Resolve(ps, n);
    if forall p :: p in ps ==> !FeedsInto(p, n) && !DrawsFrom(p, n) {
      if r.inputs != [] {
        InboundMembership(ps, n, r.inputs[0]);
      }
      if r.outputs != [] {
        OutboundMembership(ps, n, r.outputs[0]);
      }
    }
    if r == Connections([], []) {
      forall p | p in ps
        ensures !FeedsInto(p, n) && !DrawsFrom(p, n)
      {
        InboundMembership(ps, n, p);
        OutboundMembership(ps, n, p);
      }
    }
  }

  /** The outputs equal the symmetric reading (every patch drawing from the
      node) exactly when no patch of the session is a self-loop on the node. */
  lemma {:induction false} OutputsMatchSymmetricReadingIffNoSelfLoop(ps: seq<Patch>, n: Node)
    ensures Resolve(ps, n).outputs == AllDrawingFrom(ps, n)
        <==> (forall p :: p in ps ==> !(FeedsInto(p, n) && DrawsFrom(p, n)))
  {
    ResolveIsFilter(ps, n);
    if forall p :: p in ps ==> !(FeedsInto(p, n) && DrawsFrom(p, n)) {
      NoSelfLoopSameOutputs(ps, n);
    } else {
      var p :| p in ps && FeedsInto(p, n) && DrawsFrom(p, n);
      OutboundMembership(ps, n, p);
      AllDrawingMembership(ps, n, p);
    }
  }

  lemma {:induction false} NoSelfLoopSameOutputs(ps: seq<Patch>, n: Node)
    requires forall p :: p in ps ==> !(FeedsInto(p, n) && DrawsFrom(p, n))
    ensures OutboundOf(ps, n) == AllDrawingFrom(ps, n)
    decreases |ps|
  {
    if ps != [] {
      assert ps[0] in ps;
      NoSelfLoopSameOutputs(ps[1..], n);
    }
  }

  /** The `inputs` getter of a node model. */
  function Inputs(s: Session, n: Node): (r: seq<Patch>)
    ensures r == InboundOf(s.patches, n)
    ensures forall p :: p in r <==> p in s.patches && FeedsInto(p, n)
    ensures IsSubsequence(r, s.patches)
  {
    ResolveIsFilter(s.patches, n);
    ResolvePreservesOrder(s.patches, n);
    forall p
      ensures p in InboundOf(s.patches, n) <==> p in s.patches && FeedsInto(p, n)
    {
      InboundMembership(s.patches, n, p);
    }
    Resolve(s.patches, n).inputs
  }

  /** The `outputs` getter of a node model. */
  function Outputs(s: Session, n: Node): (r: seq<Patch>)
    ensures r == OutboundOf(s.patches, n)
    ensures forall p :: p in r <==> p in s.patches && DrawsFrom(p, n) && !FeedsInto(p, n)
    ensures IsSubsequence(r, s.patches)
  {
    ResolveIsFilter(s.patches, n);
    ResolvePreservesOrder(s.patches, n);
    forall p
      ensures p in OutboundOf(s.patches, n)
          <==> p in s.patches && DrawsFrom(p, n) && !FeedsInto(p, n)
    {
      OutboundMembership(s.patches, n, p);
    }
    Resolve(s.patches, n).outputs
  }

  /** The directional rule on a two-node session: a synth feeding a reverb
      is an input of the reverb and an output of the synth, never the other
      way round. */
  lemma SynthIntoReverb()
    ensures var s := Session([Patch("instrument", "synth1", "effect", "reverb1")]);
            && Inputs(s, Node("effect", "reverb1")) == s.patches
            && Outputs(s, Node("effect", "reverb1")) == []
            && Inputs(s, Node("instrument", "synth1")) == []
            && Outputs(s, Node("instrument", "synth1")) == s.patches
  {
    var s := Session([Patch("instrument", "synth1", "effect", "reverb1")]);
    assert s.patches[1..] == [];
  }
}
